=== FILE: README.md ===
# Complaint-desk client: session, role policy and form decisions

This project models the decision logic of an Angular client for a complaint
management desk. Users register, sign in, file complaints and comment on them.
Support staff (Admin, Assigne) and observers (Observateur) see more. All of the
client's decisions rest on one bearer token kept in browser storage:

- **Token cell and session** (`AuthService`). The cell is an `Option<string>`. Every
  query reads the cell again, decodes the token, and derives the role, the
  user id, the name, the current user and the expiry. Nothing is cached.
  Decoding is a parameter `string -> Option<Claims>`. The client never checks
  the signature, and a payload that does not parse yields `None`.
- **Claims** (`Claims`). A claim value is a string, an integer or a list of
  strings. This module reads claims the JavaScript way: truthiness, and the
  numeric coercion behind `+v` and `exp * 1000`.
- **Role policy.** Case-sensitive comparisons with "Admin", "Assigne" and
  "Observateur". These are tied to a closed enumeration `Role`.
- **Route guard** (`Guards`). Allow, or deny and redirect to `/login`.
  `/dashboard` is the only guarded route, and any path the route table does
  not declare is redirected to the home page.
- **Request hook** (`Interceptors`). Adds `Authorization: Bearer <token>`, as in
  section 2.1 of RFC 6750.
- **Dashboard** (`Complaints`, `Dashboard`, `Lists`). Status keyword classes,
  home-page counters, deletion rights, the greeting name, the five most recent
  complaints, removal after a delete, and comment privacy.
- **Forms** (`LoginComponent`, `AdminLoginComponent`, `RegisterComponent`,
  `Forms`). Validity, the posted payload, and where each reply leads: navigation,
  logout, or an error message.

A reply is a transition: it takes the state before and returns the state after.
Most transitions are one `subscribe` callback. Where one reply runs several
callbacks in sequence, the transition runs them all: `LoginComponent.OnLoginSuccess`
is the service's `tap`, then `next`, then `complete`, and
`RegisterComponent.OnRegisterSuccess` is `next`, then `complete`. A navigation is a recorded output value. The wall
clock (`Date.now()`) is the parameter `now`, in milliseconds.

## Model

| member | source | states |
|---|---|---|
| `Text.BeforeFirst` | src/app/components/dashboard/dashboard.component.ts:99 | `split('@')[0]`: a prefix of the email that contains no '@' and is followed by '@' or is the whole email |
| `Text.BeforeFirstSplits` | src/app/components/dashboard/dashboard.component.ts:99 | when the email has an '@', it is the prefix, then '@', then the rest; nothing is lost |
| `Text.ToNumber` | src/app/services/auth.service.ts:201 | `+s` gives 0 on the empty string; a number exactly for a run of digits, optionally after a '-'; that number is the digits' decimal value, negated after a '-' |
| `Text.LettersAreNaN` | src/app/services/auth.service.ts:201 | text that starts with a letter other than a capital 'I' (which may begin "Infinity") coerces to NaN, and so does a lone '-' |
| `Text.LeadingZeros` | src/app/services/auth.service.ts:201 | leading zeros do not change the value: "007" is 7 and "-007" is -7 |
| `Text.NumberRoundTrip` | src/app/services/auth.service.ts:201 | any integer written in decimal coerces back to itself |
| `Claims.JsNumber` | src/app/services/auth.service.ts:112 | numeric coercion of a claim: a missing claim is NaN, a number is itself, and text is parsed as `+s` |
| `Claims.TextClaim` | src/app/services/auth.service.ts:96 | `decoded[key] \|\| null` gives a value exactly when the claim is a non-empty string |
| `Claims.RoleOf` | src/app/services/auth.service.ts:133-139 | a role is never empty; a non-empty role string gives itself; a role list whose first element is non-empty gives that element; any role given is one of these two |
| `Claims.FirstRoleWins` | src/app/services/auth.service.ts:136-137 | with a role list, only the first entry counts, and an empty first entry gives no role |
| `Claims.IdOf` | src/app/services/auth.service.ts:199-201 | a falsy id claim gives no id; a truthy one gives its numeric coercion |
| `Claims.IdFromDecimalText` | src/app/services/auth.service.ts:199-201 | an id claim issued as decimal text reads back as that integer |
| `Claims.ExpiryMillis` | src/app/services/auth.service.ts:112 | `exp * 1000`: a value exactly when `exp` coerces to a number, and then that number times 1000; a numeric `exp` gives `exp*1000`; none without an `exp` claim |
| `AuthService.CurrentToken` | src/app/services/auth.service.ts:81-91 | a token counts only when it is stored and non-empty |
| `AuthService.StoreLoginToken` | src/app/services/auth.service.ts:58-63 | a reply with a non-empty token installs it; any other reply leaves the cell unchanged |
| `AuthService.Logout` | src/app/services/auth.service.ts:72-75 | logout empties the cell and requests `/login` |
| `AuthService.Session` | src/app/services/auth.service.ts:127-130 | there are no claims without a token; otherwise the claims are the decoded token |
| `AuthService.GetRole` | src/app/services/auth.service.ts:125-144 | no role without a decodable token; otherwise the role claim's reading, never empty |
| `AuthService.GetUserId` | src/app/services/auth.service.ts:191-206 | no id without a decodable token; otherwise the id claim's reading |
| `AuthService.GetUserName` | src/app/services/auth.service.ts:89-100 | no name without a decodable token; otherwise the non-empty name claim |
| `AuthService.GetCurrentUser` | src/app/services/auth.service.ts:212-238 | the all-absent user without a decodable token; otherwise id, name and role equal the single getters, and email is the email claim |
| `AuthService.IsLoggedIn` | src/app/services/auth.service.ts:106-116 | logged in only with a non-empty stored token that decodes and carries an `exp` whose value times 1000 is after now (the converse is `AuthService.LoggedInExactly`) |
| `AuthService.IsAdmin` | src/app/services/auth.service.ts:150-152 | holds exactly when the role reads as the enumeration's Admin, and only with a decodable token |
| `AuthService.IsAssigne` | src/app/services/auth.service.ts:159-161 | holds exactly when the role reads as the enumeration's Assigne, and only with a decodable token |
| `AuthService.IsObservateur` | src/app/services/auth.service.ts:167-169 | holds exactly when the role reads as the enumeration's Observateur, and only with a decodable token |
| `AuthService.HasAdminRights` | src/app/services/auth.service.ts:175-177 | holds exactly for the roles Admin and Assigne, and never together with Observateur |
| `AuthService.CanViewAllComplaints` | src/app/services/auth.service.ts:183-185 | holds exactly for every role of the enumeration, so not for the plain user |
| `AuthService.Classify` | src/app/services/auth.service.ts:150-169 | a role string maps to the enumeration member with exactly that name, and to the plain user otherwise |
| `AuthService.ClassifyRoleName` | src/app/services/auth.service.ts:150-169 | naming a role and classifying the name gives the role back |
| `AuthService.RolePolicy` | src/app/services/auth.service.ts:150-185 | each predicate holds exactly for its enumeration member; at most one base role holds; admin rights (Admin or Assigne) imply view-all |
| `AuthService.RoleNamesAreCaseSensitive` | src/app/services/auth.service.ts:157-161 | "admin" in lower case grants nothing |
| `AuthService.FirstListedRoleDecides` | src/app/services/auth.service.ts:136-137 | the roles ["Assigne", ...] give admin rights but not Admin |
| `AuthService.LoggedInExactly` | src/app/services/auth.service.ts:106-116 | logged in iff a non-empty token is stored, it decodes, and exp×1000 is strictly greater than now |
| `AuthService.ExpiryIsStrict` | src/app/services/auth.service.ts:112 | at exp×1000 the user is logged out; one millisecond earlier, logged in; one hour before exp, logged in; one second after exp, logged out |
| `AuthService.MissingExpiryIsLoggedOut` | src/app/services/auth.service.ts:110-112 | a decodable token with no `exp` is never logged in |
| `AuthService.RolesIgnoreExpiry` | src/app/services/auth.service.ts:125-144 | login status can only lapse as time passes; a token that is no longer logged in but still decodes keeps Admin and admin rights |
| `AuthService.LoginInstallsSession` | src/app/services/auth.service.ts:58-63 | after a reply with a token, the session and the current user come from that token |
| `AuthService.LogoutEndsSession` | src/app/services/auth.service.ts:72-75 | after logout: not logged in, no role rights, anonymous user |
| `AuthService.NoSessionMeansAnonymous` | src/app/services/auth.service.ts:212-217 | with no token, or one that does not decode, every getter is absent, the user is anonymous and nobody is logged in |
| `Guards.AuthGuard` | src/app/guards/auth.guard.ts:7-18 | allow iff logged in; a denial redirects to `/login`; an allow requests no navigation |
| `Guards.Activate` | src/app/app.routes.ts:11-18 | "dashboard" goes through the guard; the other declared paths ("", "portal", "login", "register") are open; every other path is redirected to the home page by the catch-all route; nothing undeclared is ever shown |
| `Guards.UnknownPathsGoHome` | src/app/app.routes.ts:17 | "no-such-page", "Dashboard" and "dashboard/x" are redirected to the home page, which is open |
| `Guards.RedirectsLandOnOpenRoutes` | src/app/app.routes.ts:12-17 | every redirect, to `/login` or to the home page, leads to a route the same session may open |
| `Guards.GuardIgnoresRoles` | src/app/guards/auth.guard.ts:11 | two sessions that agree on being logged in get the same decision, whatever their roles |
| `Guards.AnonymousIsRedirected` | src/app/app.routes.ts:16 | without a token, the dashboard is refused with a redirect to `/login` |
| `Guards.LogoutClosesDashboard` | src/app/guards/auth.guard.ts:11-17 | after logout, the dashboard is refused |
| `Interceptors.BearerRoundTrip` | src/app/interceptors/token.interceptor.ts:14-16 | reading back the `Bearer <token>` header recovers the token |
| `Interceptors.TokenInterceptor` | src/app/interceptors/token.interceptor.ts:5-24 | with a token, the forwarded request's Authorization header reads back as that token; without one, the request is unchanged; method, url, body and all other headers are kept |
| `Interceptors.BearerHeaderExample` | src/app/interceptors/token.interceptor.ts:12-23 | the token "abc" gives exactly "Bearer abc"; no token or an empty token leaves the request as it was |
| `Interceptors.ExpiredTokenStillSent` | src/app/interceptors/token.interceptor.ts:9-12 | an expired token is still attached |
| `Lists.Count` | src/app/components/dashboard/dashboard.component.ts:134-138 | `filter(p).length` is at most the length; it is 0 iff no element passes and the full length iff every element passes |
| `Lists.Without` | src/app/components/dashboard/dashboard.component.ts:239 | the filter never lengthens the list and keeps no element with that id |
| `Lists.CountIsCardinality` | src/app/components/dashboard/dashboard.component.ts:134-138 | `filter(p).length` is the number of positions whose element satisfies p |
| `Lists.WithoutMembers` | src/app/components/dashboard/dashboard.component.ts:239 | the filter keeps exactly the elements with another id; nothing else is dropped or added |
| `Lists.WithoutAppend` | src/app/components/dashboard/dashboard.component.ts:239 | the filter distributes over concatenation, so kept elements keep their order |
| `Lists.WithoutSize` | src/app/components/dashboard/dashboard.component.ts:239 | the length drops by exactly the number of elements that carry the id |
| `Lists.WithoutIdempotent` | src/app/components/dashboard/dashboard.component.ts:252 | filtering a second time removes nothing more |
| `Lists.WithoutAbsent` | src/app/components/dashboard/dashboard.component.ts:252 | a list without that id is unchanged |
| `Complaints.NoStatusCountsNowhere` | src/app/components/dashboard/dashboard.component.ts:134-136 | a missing or empty status is neither in progress nor resolved |
| `Complaints.CalculateStats` | src/app/components/dashboard/dashboard.component.ts:132-139 | the total is the list length; the in-progress and resolved counters are the numbers of complaints whose status has the keyword |
| `Complaints.StatusClass` | src/app/components/dashboard/dashboard.component.ts:264-270 | the class is "" iff the status is missing or empty; resolved iff a resolved keyword occurs; in progress iff "en cours" occurs without a resolved keyword; new otherwise |
| `Complaints.BadgeAgreesWithCounters` | src/app/components/dashboard/dashboard.component.ts:264-270 | the resolved badge marks exactly the complaints the resolved counter counts; the in-progress badge marks only complaints the in-progress counter counts |
| `Complaints.CanBeDeleted` | src/app/components/dashboard/dashboard.component.ts:272-275 | deletable iff the lower-cased status is exactly "en attente" |
| `Complaints.DeletableIsNew` | src/app/components/dashboard/dashboard.component.ts:272-275 | a deletable complaint wears the "new" badge and is counted neither in progress nor resolved |
| `Complaints.SortByDateDesc` | src/app/components/dashboard/dashboard.component.ts:125 | the sort is a permutation, ordered by submission date with the most recent first, and stable: the complaints of each date keep their input order |
| `Complaints.RecentComplaints` | src/app/components/dashboard/dashboard.component.ts:125 | at most five complaints, taken from the list and sorted most recent first; no complaint left out is more recent than one kept |
| `Complaints.RecentAreListed` | src/app/components/dashboard/dashboard.component.ts:125 | every recent complaint is in the list |
| `Dashboard.DisplayName` | src/app/components/dashboard/dashboard.component.ts:96-100 | the name if non-empty; else the email's part before the first '@'; else the previous value |
| `Dashboard.SetView` | src/app/components/dashboard/dashboard.component.ts:112-115 | the active section is set and the detail view closed; nothing else changes |
| `Dashboard.BackToList` | src/app/components/dashboard/dashboard.component.ts:200-204 | ends on "suivre" with no complaint open and no comments; nothing else changes |
| `Dashboard.OnInit` | src/app/components/dashboard/dashboard.component.ts:91-102 | the admin flag is `isAdmin`; the user is the current user; the home section is shown; the greeting follows `DisplayName`; loading starts; the complaint and comment lists are empty, so the counters are zero and the recent list is empty |
| `Dashboard.AnonymousGreeting` | src/app/components/dashboard/dashboard.component.ts:52 | without a session, the greeting stays "Utilisateur" and the admin flag is off |
| `Dashboard.OnComplaintsLoaded` | src/app/components/dashboard/dashboard.component.ts:122-127 | the list is the data; the counters and the recent list are derived from it; loading ends; nothing else changes |
| `Dashboard.OnComplaintsLoadFailed` | src/app/components/dashboard/dashboard.component.ts:128 | the error message is set and loading ends; nothing else changes |
| `Dashboard.OnComplaintDeleted` | src/app/components/dashboard/dashboard.component.ts:238-241 | as written: exactly the complaints with that id go and the counters are recomputed, but the recent list is left unchanged, like every other field |
| `Dashboard.DeleteUpdatesTotal` | src/app/components/dashboard/dashboard.component.ts:239-240 | the total drops by exactly the number of complaints with that id |
| `Dashboard.DeletedComplaintStaysRecent` | src/app/components/dashboard/dashboard.component.ts:238-241 | a complaint that is loaded and then deleted is gone from the list but still among the recent ones |
| `Dashboard.OnComplaintDeletedRefreshed` | src/app/components/dashboard/dashboard.component.ts:238-241 | corrected: the counters and the recent list both match the remaining complaints, no recent complaint carries the deleted id, and nothing else changes |
| `Dashboard.OnCommentDeleted` | src/app/components/dashboard/dashboard.component.ts:251-254 | exactly the comments with that id go, the others stay in order; nothing else changes |
| `Dashboard.AddComment` | src/app/components/dashboard/dashboard.component.ts:206-209 | a request is sent iff the form is valid and a complaint is open; it is private iff the user is Admin and ticked the box |
| `Dashboard.CanDeleteComment` | src/app/components/dashboard/dashboard.component.ts:277-283 | an Admin may delete any comment; anyone else only their own, and only while the complaint is deletable ("en attente") |
| `Dashboard.AssigneIsNotDashboardAdmin` | src/app/components/dashboard/dashboard.component.ts:92 | an Assigne has admin rights but posts only public comments and deletes only their own |
| `Forms.ErrorMessage` | src/app/components/login/login.component.ts:82 | the server's text when it is non-empty text; the fixed message otherwise |
| `LoginComponent.Create` | src/app/components/login/login.component.ts:45-49 | `isForAdmin` iff the navigation state's `userType` is "admin" |
| `LoginComponent.FormValid` | src/app/components/login/login.component.ts:40-41 | valid iff the email is non-empty and accepted by `isEmail`, and the password is non-empty |
| `LoginComponent.OnSubmit` | src/app/components/login/login.component.ts:52-66 | an invalid form is marked touched, sends nothing and keeps `isLoading`; a valid one starts loading and posts exactly its email and password |
| `LoginComponent.OnLoginSuccess` | src/app/components/login/login.component.ts:68-88 | goes to `/dashboard` iff it is the ordinary form, or the role read from the cell after the reply (the previous token when the reply carries none) is Admin or Assigne; otherwise logs out (cell emptied, `/login`) with the refusal message; loading ends and nothing else in the component changes |
| `LoginComponent.OnLoginError` | src/app/components/login/login.component.ts:81-85 | shows the server's text or "Email ou mot de passe incorrect."; loading ends; no navigation |
| `LoginComponent.SupportFormAdmitsAdminRights` | src/app/components/login/login.component.ts:70-76 | on the support form, whoever reaches the dashboard has admin rights; whoever is refused ends logged out at every instant, and anonymous |
| `AdminLoginComponent.OnSubmit` | src/app/components/admin-login/admin-login.component.ts:25-28 | nothing is posted unless both fields are non-empty; then exactly those two fields |
| `AdminLoginComponent.OnLoginSuccess` | src/app/components/admin-login/admin-login.component.ts:30-37 | goes to `/dashboard` iff the role read from the cell after the reply (the previous token when the reply carries none) is Admin; otherwise logs out with the refusal message |
| `AdminLoginComponent.OnLoginError` | src/app/components/admin-login/admin-login.component.ts:39-41 | the fixed message, whatever the error |
| `AdminLoginComponent.TokenlessReplyJudgesPreviousSession` | src/app/services/auth.service.ts:58-63 | a successful reply without a token stores nothing, so both pages decide on the session already stored |
| `AdminLoginComponent.StricterThanSupportLogin` | src/app/components/admin-login/admin-login.component.ts:32 | whoever this page admits, the support login form admits too; an Assigne passes there but is refused here |
| `RegisterComponent.ValidityRule` | src/app/components/register/register.component.ts:74-83 | valid iff there is a username, the password is at least 6 UTF-16 code units long, and the email is empty or well formed |
| `RegisterComponent.PasswordLengthInCodeUnits` | src/app/components/register/register.component.ts:82 | three emoji (six code units) pass the length rule; five accented letters do not |
| `Forms.Utf16Length` | src/app/components/register/register.component.ts:82 | the JavaScript length lies between the number of characters and twice that |
| `Forms.Utf16LengthCountsSupplementary` | src/app/components/register/register.component.ts:82 | the JavaScript length is the number of characters plus one for each character at or above U+10000 |
| `Forms.Utf16LengthOfBmp` | src/app/components/register/register.component.ts:82 | without characters beyond the Basic Multilingual Plane, the JavaScript length is the number of characters |
| `RegisterComponent.OnSubmit` | src/app/components/register/register.component.ts:94-114 | an invalid form is marked touched and sends nothing; a valid one starts loading and maps username, email and password to Nom, Email and MotDePasse |
| `RegisterComponent.OnRegisterSuccess` | src/app/components/register/register.component.ts:118-156 | navigates to `/login`; loading ends |
| `RegisterComponent.OnRegisterError` | src/app/components/register/register.component.ts:135-150 | shows the server's text or the fixed message; no navigation; loading ends |
| `RegisterComponent.LoadingSpansTheRequest` | src/app/components/register/register.component.ts:102-155 | a valid submission starts loading; loading is over after either reply |

## Findings

| source | as written | input that shows it | evidently intended | confidence | as-written member | corrected member |
|---|---|---|---|---|---|---|
| src/app/components/dashboard/dashboard.component.ts:238-241 | after a delete, the list and the counters are updated but `recentComplaints` is not | load one complaint, then delete it: the list is empty but the home page's recent list still shows it | the recent list is derived again from the remaining complaints, as after a load | medium, not executed | `Dashboard.OnComplaintDeleted` (exhibited by `Dashboard.DeletedComplaintStaysRecent`) | `Dashboard.OnComplaintDeletedRefreshed` |

## Behaviour worth knowing

- There is one guard, `authGuard`, and only `/dashboard` is behind it. No route checks a role.
- Only `isLoggedIn` checks the expiry. The role predicates and the getters accept an expired token as long as it decodes (`AuthService.RolesIgnoreExpiry`). The request hook decodes nothing: it attaches any non-empty stored token (`Interceptors.ExpiredTokenStillSent`).
- A successful login reply without a token stores nothing. Both login pages then decide on the session already in the cell, so a previous Admin session still goes on to the dashboard (`AdminLoginComponent.TokenlessReplyJudgesPreviousSession`).
- `logout` also navigates to `/login`. So the refusal paths of both login forms end with a navigation to `/login`.

## Left out

- Token decoding: base64url and JSON parsing belong to the decoding library. They are the `Decoder` parameter. No signature check exists, so none is modelled.
- Browser storage: it is one `Option<string>` cell under the key `auth_token`. The wall clock is the parameter `now`.
- HTTP calls and Observables: only the callbacks are modelled. The register and login posts, and the complaint, category and status services, are thin HTTP wrappers.
- Snackbar display, `confirm()` dialogs, console logging, locale and date-pipe setup: left out. A shown message is a returned value. The delete handlers model the confirmed case.
- Dashboard handlers not modelled, all plain HTTP plumbing: `loadCategories`, `loadAllStatuses`, `onCategoryChange`, `onAddComplaint`, `cancelForm`, `viewComplaintDetails` and `onUpdateStatus`.
- Dashboard.AddComment: only the request built by `onAddComment` is modelled. Its success callback, which resets the form and reloads the comments from the server, is not.
- The password-visibility flag, the unused "remember me" value, the environment files, and the empty components (home, portal, root component): left out.
- `Validators.email`: its pattern is the parameter `isEmail`. The model does encode the rule that the validator accepts an empty value.
- Text.Lower: lower-cases ASCII letters only. `toLowerCase` also maps accented capitals, so "RÉSOLU" matches the keyword in the source but not in the model.
- Claims.TextClaim: a name or email claim that holds a number or a list is read as absent. In the source, `|| null` passes such a value through into a field typed as a string.
- Claims.RoleOf: a role claim that holds a non-zero number is read as absent. In the source it passes through as a number. It equals no role name, so only `getCurrentUser().role` differs.
- Claims.JsNumber: claim numbers are integers, so a fractional `exp` is not modelled. Text that JavaScript would still read as a number is NaN here: surrounding spaces, a leading '+', hex, an exponent or a fraction.
- AuthService.GetUserId: a NaN id is absent. The only consumer compares the id with `===` against a numeric author id, and neither NaN nor null matches one.
- Interceptors.TokenInterceptor: header names are compared case-sensitively. Angular's header map ignores case.
- Complaints.RecentComplaints: which of several equal-date complaints are kept follows from the stability of `Complaints.SortByDateDesc`, but this contract does not restate it. Invalid dates (NaN timestamps) are not modelled.
- Text.ToNumber: the result is an exact integer, while `+s` gives an IEEE double. An id above 2^53 would round in the source, and "Infinity" is a number there but NaN here.
- Guards.Activate: paths are single route-table segments, compared exactly. Query strings, fragments and child routes do not occur in the table and are not modelled.
- Dashboard.CanDeleteComment: requires a complaint to be open. The source dereferences `selectedComplaint` and is only reached from the detail view.

=== FILE: admin_login.dfy ===
/** The administrators' login page: only the Admin role may go on to the dashboard. */
module AdminLoginComponent {
  import opened Optional
  import opened Claims
  import opened AuthService
  import opened Forms
  import LoginComponent

  datatype Credentials = Credentials(email: string, password: string)

  const AdminsOnly := "Accès refusé. Cette zone est réservée aux administrateurs."

  /** `onSubmit`: nothing is posted unless both fields are filled in; then exactly those two. */
  function OnSubmit(c: Credentials): (r: Option<LoginRequest>)
    ensures r.Some? <==> c.email != "" && c.password != ""
    ensures r.Some? ==> Credentials(r.value.Email, r.value.MotDePasse) == c
  {
    if c.email == "" || c.password == "" then None
    else Some(LoginRequest(c.email, c.password))
  }

  datatype Outcome = Outcome(store: Store, navigation: Option<string>, error: Option<string>)

  /** A successful login reply: Admin goes on, anyone else is logged out and refused. */
  function OnLoginSuccess(store: Store, response: LoginResponse, decode: Decoder): (r: Outcome)
    ensures var s := StoreLoginToken(store, response);
      && (r.navigation == Some(DashboardPath) <==> IsAdmin(s, decode))
      && (IsAdmin(s, decode) ==> r.store == s && r.error.None?)
      && (!IsAdmin(s, decode) ==> r.store.None? && r.navigation == Some(LoginPath) && r.error == Some(AdminsOnly))
  {
    var s := StoreLoginToken(store, response);
    if IsAdmin(s, decode) then Outcome(s, Some(DashboardPath), None)
    else
      var out := Logout();
      Outcome(out.store, out.navigation, Some(AdminsOnly))
  }

  /** A failed login always shows the fixed message, whatever the server said. */
  function OnLoginError(store: Store, err: ErrorBody): (r: Outcome)
    ensures r == Outcome(store, None, Some(IncorrectCredentials))
  {
    Outcome(store, None, Some(IncorrectCredentials))
  }

  /**
   * A reply without a token stores nothing, so both login pages judge the
   * session already in the cell: a previous Admin session goes on to the
   * dashboard.
   */
  lemma TokenlessReplyJudgesPreviousSession(st: LoginComponent.State, store: Store, decode: Decoder)
    ensures OnLoginSuccess(store, LoginResponse(None), decode).navigation == Some(DashboardPath) <==>
              IsAdmin(store, decode)
    ensures LoginComponent.OnLoginSuccess(st, store, LoginResponse(None), decode).navigation == Some(DashboardPath) <==>
              !st.isForAdmin || IsAdmin(store, decode) || IsAssigne(store, decode)
  {
  }

  /**
   * This page is stricter than the support-team login form: whoever it lets
   * through, that form lets through too, but an Assigne passes there and is
   * refused here.
   */
  lemma StricterThanSupportLogin(st: LoginComponent.State, store: Store, response: LoginResponse, decode: Decoder)
    requires st.isForAdmin
    ensures OnLoginSuccess(store, response, decode).navigation == Some(DashboardPath) ==>
              LoginComponent.OnLoginSuccess(st, store, response, decode).navigation == Some(DashboardPath)
    ensures IsAssigne(StoreLoginToken(store, response), decode) ==>
              && OnLoginSuccess(store, response, decode).navigation != Some(DashboardPath)
              && LoginComponent.OnLoginSuccess(st, store, response, decode).navigation == Some(DashboardPath)
  {
  }
}

=== FILE: auth_service.dfy ===
/**
 * The authentication service: the token cell, the session derived from it on
 * every query, and the role policy over that session. Nothing is cached: each
 * query reads the cell and decodes the token again, so every function here
 * takes the cell (`store`) and the decoder as arguments.
 */
module AuthService {
  import opened Optional
  import opened Claims

  /** The browser storage entry under the key "auth_token": the raw token, if any. */
  type Store = Option<string>

  const LoginPath := "/login"
  const DashboardPath := "/dashboard"

  /** The body posted to the login endpoint. */
  datatype LoginRequest = LoginRequest(Email: string, MotDePasse: string)

  /** The login endpoint's reply; a missing reply or field is `None`. */
  datatype LoginResponse = LoginResponse(token: Option<string>)

  /** The identity the dashboard shows. */
  datatype User = User(id: Option<int>, email: Option<string>, name: Option<string>, role: Option<string>)

  const AnonymousUser := User(None, None, None, None)

  /** A change to the token cell together with the navigation it requests. */
  datatype AuthStep = AuthStep(store: Store, navigation: Option<string>)

  // ----- Token cell -----

  /** The stored token as the service's `if (!token)` tests see it: an empty token counts as none. */
  function CurrentToken(store: Store): (t: Option<string>)
    ensures t.Some? <==> store.Some? && store.value != ""
    ensures t.Some? ==> t == store
  {
    if store.Some? && store.value != "" then store else None
  }

  /**
   * The `tap` of `login`: a reply carrying a non-empty token replaces the
   * stored token; any other reply leaves the cell as it was.
   */
  function StoreLoginToken(store: Store, response: LoginResponse): (s: Store)
    ensures response.token.Some? && response.token.value != "" ==> CurrentToken(s) == response.token
    ensures response.token.None? || response.token.value == "" ==> s == store
  {
    match response.token
    case Some(t) => if t != "" then Some(t) else store
    case None => store
  }

  /** `logout`: the cell is emptied and the login page requested. */
  function Logout(): (r: AuthStep)
    ensures r.store.None?
    ensures r.navigation == Some(LoginPath)
  {
    AuthStep(None, Some(LoginPath))
  }

  // ----- Session -----

  /** The claims of the stored token; `None` without a token or when it does not decode. */
  function Session(store: Store, decode: Decoder): (r: Option<Claims>)
    ensures CurrentToken(store).None? ==> r.None?
    ensures CurrentToken(store).Some? ==> r == decode(CurrentToken(store).value)
  {
    match CurrentToken(store)
    case None => None
    case Some(t) => decode(t)
  }

  /** `getRole`. */
  function GetRole(store: Store, decode: Decoder): (r: Option<string>)
    ensures Session(store, decode).None? ==> r.None?
    ensures r.Some? ==> r.value != ""
    ensures Session(store, decode).Some? ==> r == RoleOf(Session(store, decode).value)
  {
    match Session(store, decode)
    case None => None
    case Some(c) => RoleOf(c)
  }

  /** `getUserId`. */
  function GetUserId(store: Store, decode: Decoder): (r: Option<int>)
    ensures Session(store, decode).None? ==> r.None?
    ensures Session(store, decode).Some? ==> r == IdOf(Session(store, decode).value)
  {
    match Session(store, decode)
    case None => None
    case Some(c) => IdOf(c)
  }

  /** `getUserName`. */
  function GetUserName(store: Store, decode: Decoder): (r: Option<string>)
    ensures Session(store, decode).None? ==> r.None?
    ensures r.Some? ==> r.value != ""
    ensures Session(store, decode).Some? ==> r == TextClaim(Session(store, decode).value, NameClaim)
  {
    match Session(store, decode)
    case None => None
    case Some(c) => TextClaim(c, NameClaim)
  }

  /**
   * `getCurrentUser`: the all-absent user without a decodable token, else the
   * four claims, agreeing field by field with the single-claim getters.
   */
  function GetCurrentUser(store: Store, decode: Decoder): (u: User)
    ensures Session(store, decode).None? ==> u == AnonymousUser
    ensures u.id == GetUserId(store, decode)
    ensures u.name == GetUserName(store, decode)
    ensures u.role == GetRole(store, decode)
    ensures Session(store, decode).Some? ==> u.email == TextClaim(Session(store, decode).value, EmailClaim)
  {
    match Session(store, decode)
    case None => AnonymousUser
    case Some(c) => User(IdOf(c), TextClaim(c, EmailClaim), TextClaim(c, NameClaim), GetRole(store, decode))
  }

  /**
   * `isLoggedIn` at wall-clock time `now` (milliseconds): the token decodes and
   * its expiry, scaled to milliseconds, lies strictly after `now`.
   */
  predicate IsLoggedIn(store: Store, decode: Decoder, now: int)
    ensures IsLoggedIn(store, decode, now) ==>
              && store.Some? && store.value != ""
              && decode(store.value).Some?
              && ExpClaim in decode(store.value).value
              && JsNumber(Lookup(decode(store.value).value, ExpClaim)).Some?
              && JsNumber(Lookup(decode(store.value).value, ExpClaim)).value * 1000 > now
  {
    match Session(store, decode)
    case None => false
    case Some(c) => ExpiryMillis(c).Some? && ExpiryMillis(c).value > now
  }

  // ----- Role policy -----

  /** The server's closed role enumeration; `PlainUser` is every other value, or none. */
  datatype Role = Admin | Assigne | Observateur | PlainUser

  /** The exact, case-sensitive role names the issuer writes. */
  function RoleName(r: Role): Option<string> {
    match r
    case Admin => Some("Admin")
    case Assigne => Some("Assigne")
    case Observateur => Some("Observateur")
    case PlainUser => None
  }

  /** Reads a role claim against the enumeration. */
  function Classify(role: Option<string>): (r: Role)
    ensures r != PlainUser ==> RoleName(r) == role
    ensures r == PlainUser ==> role !in {Some("Admin"), Some("Assigne"), Some("Observateur")}
  {
    if role == Some("Admin") then Admin
    else if role == Some("Assigne") then Assigne
    else if role == Some("Observateur") then Observateur
    else PlainUser
  }

  /** Naming a role and reading the name back gives the same role. */
  lemma ClassifyRoleName(r: Role)
    ensures Classify(RoleName(r)) == r
  {
  }

  /** `isAdmin`: the session's role is exactly "Admin". */
  predicate IsAdmin(store: Store, decode: Decoder)
    ensures IsAdmin(store, decode) <==> Classify(GetRole(store, decode)) == Admin
    ensures IsAdmin(store, decode) ==> Session(store, decode).Some?
  {
    GetRole(store, decode) == Some("Admin")
  }

  /** `isAssigne`: the session's role is exactly "Assigne". */
  predicate IsAssigne(store: Store, decode: Decoder)
    ensures IsAssigne(store, decode) <==> Classify(GetRole(store, decode)) == Assigne
    ensures IsAssigne(store, decode) ==> Session(store, decode).Some?
  {
    GetRole(store, decode) == Some("Assigne")
  }

  /** `isObservateur`: the session's role is exactly "Observateur". */
  predicate IsObservateur(store: Store, decode: Decoder)
    ensures IsObservateur(store, decode) <==> Classify(GetRole(store, decode)) == Observateur
    ensures IsObservateur(store, decode) ==> Session(store, decode).Some?
  {
    GetRole(store, decode) == Some("Observateur")
  }

  /** `hasAdminRights`: Admin or Assigne. */
  predicate HasAdminRights(store: Store, decode: Decoder)
    ensures HasAdminRights(store, decode) <==> Classify(GetRole(store, decode)) in {Admin, Assigne}
    ensures HasAdminRights(store, decode) ==> !IsObservateur(store, decode)
  {
    IsAdmin(store, decode) || IsAssigne(store, decode)
  }

  /** `canViewAllComplaints`: any role of the enumeration. */
  predicate CanViewAllComplaints(store: Store, decode: Decoder)
    ensures CanViewAllComplaints(store, decode) <==> Classify(GetRole(store, decode)) != PlainUser
  {
    IsAdmin(store, decode) || IsAssigne(store, decode) || IsObservateur(store, decode)
  }

  /**
   * The five role predicates are exactly the enumeration read off the session:
   * at most one base role holds, admin rights are Admin or Assigne, and viewing
   * all complaints is any role but the plain user.
   */
  lemma RolePolicy(store: Store, decode: Decoder)
    ensures var role := Classify(GetRole(store, decode));
      && (IsAdmin(store, decode) <==> role == Admin)
      && (IsAssigne(store, decode) <==> role == Assigne)
      && (IsObservateur(store, decode) <==> role == Observateur)
      && (HasAdminRights(store, decode) <==> role == Admin || role == Assigne)
      && (CanViewAllComplaints(store, decode) <==> role != PlainUser)
    ensures HasAdminRights(store, decode) ==> CanViewAllComplaints(store, decode)
    ensures !(IsAdmin(store, decode) && IsAssigne(store, decode))
    ensures !(IsAdmin(store, decode) && IsObservateur(store, decode))
    ensures !(IsAssigne(store, decode) && IsObservateur(store, decode))
  {
  }

  /** The checks are case-sensitive: "admin" is a plain user. */
  lemma RoleNamesAreCaseSensitive(store: Store, decode: Decoder)
    requires GetRole(store, decode) == Some("admin")
    ensures !CanViewAllComplaints(store, decode)
  {
  }

  /**
   * A role list whose first entry is "Assigne" gives admin rights whatever
   * follows it.
   */
  lemma FirstListedRoleDecides(store: Store, decode: Decoder, rest: seq<string>)
    requires Session(store, decode).Some?
    requires Lookup(Session(store, decode).value, RoleClaim) == Some(StrList(["Assigne"] + rest))
    ensures GetRole(store, decode) == Some("Assigne")
    ensures HasAdminRights(store, decode) && !IsAdmin(store, decode)
  {
  }

  // ----- Expiry -----

  /**
   * `isLoggedIn` holds exactly when there is a token, it decodes, and its
   * expiry in milliseconds is strictly later than `now`.
   */
  lemma LoggedInExactly(store: Store, decode: Decoder, now: int)
    ensures IsLoggedIn(store, decode, now) <==>
              && store.Some? && store.value != ""
              && decode(store.value).Some?
              && ExpiryMillis(decode(store.value).value).Some?
              && ExpiryMillis(decode(store.value).value).value > now
  {
  }

  /** Expiry is strict: a token is already expired at its own expiry instant. */
  lemma ExpiryIsStrict(store: Store, decode: Decoder, seconds: int)
    requires Session(store, decode).Some?
    requires Lookup(Session(store, decode).value, ExpClaim) == Some(Num(seconds))
    ensures !IsLoggedIn(store, decode, seconds * 1000)
    ensures IsLoggedIn(store, decode, seconds * 1000 - 1)
    ensures !IsLoggedIn(store, decode, (seconds + 1) * 1000)
    ensures IsLoggedIn(store, decode, (seconds - 3600) * 1000)
  {
  }

  /** A token without an expiry claim never counts as logged in. */
  lemma MissingExpiryIsLoggedOut(store: Store, decode: Decoder, now: int)
    requires Session(store, decode).Some?
    requires ExpClaim !in Session(store, decode).value
    ensures !IsLoggedIn(store, decode, now)
  {
  }

  /**
   * The role predicates never consult the expiry: an expired token that still
   * decodes keeps its role and its rights.
   */
  lemma RolesIgnoreExpiry(store: Store, decode: Decoder, now: int, later: int)
    requires now <= later
    ensures IsLoggedIn(store, decode, later) ==> IsLoggedIn(store, decode, now)
    ensures && !IsLoggedIn(store, decode, now)
            && Session(store, decode).Some? && RoleOf(Session(store, decode).value) == Some("Admin") ==>
              IsAdmin(store, decode) && HasAdminRights(store, decode)
  {
  }

  // ----- Transitions -----

  /** After a login reply with a token, the session is the decoded new token. */
  lemma LoginInstallsSession(store: Store, response: LoginResponse, decode: Decoder)
    requires response.token.Some? && response.token.value != ""
    ensures Session(StoreLoginToken(store, response), decode) == decode(response.token.value)
    ensures GetCurrentUser(StoreLoginToken(store, response), decode) ==
              GetCurrentUser(Some(response.token.value), decode)
  {
  }

  /** After logout nobody is logged in, no role holds and the user is anonymous. */
  lemma LogoutEndsSession(decode: Decoder, now: int)
    ensures var s := Logout().store;
      && !IsLoggedIn(s, decode, now)
      && !CanViewAllComplaints(s, decode)
      && !HasAdminRights(s, decode)
      && GetCurrentUser(s, decode) == AnonymousUser
  {
  }

  /** Without a token, or with one that does not decode, every reading is absent. */
  lemma NoSessionMeansAnonymous(store: Store, decode: Decoder, now: int)
    requires CurrentToken(store).None? || decode(CurrentToken(store).value).None?
    ensures GetRole(store, decode).None? && GetUserId(store, decode).None? && GetUserName(store, decode).None?
    ensures GetCurrentUser(store, decode) == AnonymousUser
    ensures !IsLoggedIn(store, decode, now) && !CanViewAllComplaints(store, decode)
  {
  }
}

=== FILE: claims.dfy ===
/**
 * The decoded payload of a bearer token: a map from claim names to JSON
 * values, and the way the client reads those values (JavaScript truthiness,
 * numeric coercion). Decoding itself is a parameter: the client never checks
 * the signature, it only parses the payload, and any parse failure is `None`.
 */
module Claims {
  import opened Optional
  import Text

  /** The JSON values the issuer puts in a claim. */
  datatype ClaimValue = Str(s: string) | Num(n: int) | StrList(items: seq<string>)

  type Claims = map<string, ClaimValue>

  /** `jwtDecode`: `None` where the library would throw. */
  type Decoder = string -> Option<Claims>

  const NameIdentifierClaim := "http://schemas.xmlsoap.org/ws/2005/05/identity/claims/nameidentifier"
  const EmailClaim := "http://schemas.xmlsoap.org/ws/2005/05/identity/claims/emailaddress"
  const NameClaim := "http://schemas.xmlsoap.org/ws/2005/05/identity/claims/name"
  const RoleClaim := "http://schemas.microsoft.com/ws/2008/06/identity/claims/role"
  /** The expiration time claim of section 4.1.4 of RFC 7519, in seconds. */
  const ExpClaim := "exp"

  /** `decoded[key]`: `None` is `undefined`. */
  function Lookup(c: Claims, key: string): Option<ClaimValue> {
    if key in c then Some(c[key]) else None
  }

  /** JavaScript truthiness of a claim value; arrays are truthy even when empty. */
  predicate Truthy(v: Option<ClaimValue>) {
    match v
    case None => false
    case Some(Str(s)) => s != ""
    case Some(Num(n)) => n != 0
    case Some(StrList(_)) => true
  }

  /**
   * The numeric coercion of a claim value (`+v`, `v * 1000`): `None` is NaN.
   * `undefined` is NaN; an array coerces through its comma-joined text, so
   * `[]` is 0, `[x]` is `+x`, and two or more elements are NaN.
   */
  function JsNumber(v: Option<ClaimValue>): (r: Option<int>)
    ensures v.None? ==> r.None?
    ensures v.Some? && v.value.Num? ==> r == Some(v.value.n)
    ensures v.Some? && v.value.Str? ==> r == Text.ToNumber(v.value.s)
  {
    match v
    case None => None
    case Some(Num(n)) => Some(n)
    case Some(Str(s)) => Text.ToNumber(s)
    case Some(StrList(items)) =>
      if |items| == 0 then Some(0)
      else if |items| == 1 then Text.ToNumber(items[0])
      else None
  }

  /**
   * `decoded[key] || null` for a claim read as text: a non-empty string, else
   * absent.
   */
  function TextClaim(c: Claims, key: string): (r: Option<string>)
    ensures r.Some? <==> key in c && c[key].Str? && c[key].s != ""
    ensures r.Some? ==> r.value == c[key].s
  {
    match Lookup(c, key)
    case Some(Str(s)) => if s != "" then Some(s) else None
    case _ => None
  }

  /**
   * The role: a list of roles yields its first element, a single role yields
   * itself; an empty list, an empty first element or an empty role yield none.
   */
  function RoleOf(c: Claims): (r: Option<string>)
    ensures r.Some? ==> r.value != ""
    ensures RoleClaim in c && c[RoleClaim].Str? && c[RoleClaim].s != "" ==> r == Some(c[RoleClaim].s)
    ensures RoleClaim in c && c[RoleClaim].StrList? && |c[RoleClaim].items| > 0 && c[RoleClaim].items[0] != "" ==>
              r == Some(c[RoleClaim].items[0])
    ensures r.Some? ==>
              && RoleClaim in c
              && (|| c[RoleClaim] == Str(r.value)
                  || (c[RoleClaim].StrList? && |c[RoleClaim].items| > 0 && c[RoleClaim].items[0] == r.value))
  {
    match Lookup(c, RoleClaim)
    case Some(StrList(items)) => if |items| > 0 && items[0] != "" then Some(items[0]) else None
    case Some(Str(s)) => if s != "" then Some(s) else None
    case _ => None
  }

  /** `decoded[idClaim] ? +decoded[idClaim] : null`, NaN read as absent. */
  function IdOf(c: Claims): (r: Option<int>)
    ensures !Truthy(Lookup(c, NameIdentifierClaim)) ==> r.None?
    ensures Truthy(Lookup(c, NameIdentifierClaim)) ==> r == JsNumber(Lookup(c, NameIdentifierClaim))
  {
    var v := Lookup(c, NameIdentifierClaim);
    if Truthy(v) then JsNumber(v) else None
  }

  /** `decoded.exp * 1000`: the expiry in milliseconds, `None` for NaN. */
  function ExpiryMillis(c: Claims): (r: Option<int>)
    ensures ExpClaim !in c ==> r.None?
    ensures r.Some? <==> JsNumber(Lookup(c, ExpClaim)).Some?
    ensures r.Some? ==> r.value % 1000 == 0 && JsNumber(Lookup(c, ExpClaim)) == Some(r.value / 1000)
    ensures ExpClaim in c && c[ExpClaim].Num? ==> r == Some(c[ExpClaim].n * 1000)
  {
    match JsNumber(Lookup(c, ExpClaim))
    case Some(seconds) => Some(seconds * 1000)
    case None => None
  }

  /** Among several roles, only the first is read. */
  lemma FirstRoleWins(c: Claims, first: string, rest: seq<string>)
    requires Lookup(c, RoleClaim) == Some(StrList([first] + rest))
    ensures RoleOf(c) == (if first == "" then None else Some(first))
  {
  }

  /** An id claim issued as the decimal text of an integer reads back as that integer. */
  lemma IdFromDecimalText(c: Claims, id: int)
    requires Lookup(c, NameIdentifierClaim) == Some(Str(Text.ShowInt(id)))
    ensures IdOf(c) == Some(id)
  {
    Text.NumberRoundTrip(id);
    assert Text.ShowInt(id) != "";
  }
}

=== FILE: complaints.dfy ===
/**
 * What the dashboard derives from a list of complaints: the status keyword
 * classes, the home-page counters, the deletable test, and the five most
 * recent complaints. A status is free text from the server; the client only
 * looks for keywords in its lower-cased form.
 */
module Complaints {
  import opened Optional
  import opened Text
  import Lists

  /** A complaint as listed; the submission date is its timestamp in milliseconds. */
  datatype Complaint = Complaint(id: int, objet: string, statut: Option<string>, submittedAt: int)

  datatype Comment = Comment(id: int, contenu: string, estPrive: bool, auteurId: int)

  const InProgressKeyword := "en cours"
  const Resolu := "résolu"
  const Ferme := "fermé"
  const Traite := "traité"
  const PendingStatus := "en attente"

  const ClassResolved := "statut-traite"
  const ClassInProgress := "statut-en-cours"
  const ClassNew := "statut-nouveau"

  /** `statut?.toLowerCase() || ''`. */
  function LoweredStatus(statut: Option<string>): string {
    if statut.Some? then Lower(statut.value) else ""
  }

  predicate IsInProgress(statut: Option<string>) {
    Contains(LoweredStatus(statut), InProgressKeyword)
  }

  predicate IsResolved(statut: Option<string>) {
    var s := LoweredStatus(statut);
    Contains(s, Resolu) || Contains(s, Ferme) || Contains(s, Traite)
  }

  /** A missing or empty status is neither in progress nor resolved. */
  lemma NoStatusCountsNowhere(statut: Option<string>)
    requires statut.None? || statut.value == ""
    ensures !IsInProgress(statut) && !IsResolved(statut)
  {
  }

  // ----- Home-page counters -----

  datatype Stats = Stats(total: nat, inProgress: nat, resolved: nat)

  /**
   * `calculateDashboardStats`: the number of complaints, and how many of them
   * have a status containing "en cours", resp. one of the resolved keywords.
   */
  function CalculateStats(cs: seq<Complaint>): (r: Stats)
    ensures r.total == |cs|
    ensures r.inProgress == |set i | 0 <= i < |cs| && IsInProgress(cs[i].statut)|
    ensures r.resolved == |set i | 0 <= i < |cs| && IsResolved(cs[i].statut)|
  {
    var inProgress := (c: Complaint) => IsInProgress(c.statut);
    var resolved := (c: Complaint) => IsResolved(c.statut);
    Lists.CountIsCardinality(cs, inProgress);
    Lists.CountIsCardinality(cs, resolved);
    assert Lists.Indices(cs, inProgress) == set i | 0 <= i < |cs| && IsInProgress(cs[i].statut);
    assert Lists.Indices(cs, resolved) == set i | 0 <= i < |cs| && IsResolved(cs[i].statut);
    Stats(|cs|, Lists.Count(cs, inProgress), Lists.Count(cs, resolved))
  }

  // ----- Status badge -----

  /**
   * `getStatutClass`: no class for a missing or empty status; the resolved
   * keywords win over "en cours"; anything else is new.
   */
  function StatusClass(statut: Option<string>): (r: string)
    ensures r == "" <==> statut.None? || statut.value == ""
    ensures r == ClassResolved <==> IsResolved(statut)
    ensures r == ClassInProgress <==> IsInProgress(statut) && !IsResolved(statut)
    ensures r == ClassNew <==> statut.Some? && statut.value != "" && !IsInProgress(statut) && !IsResolved(statut)
  {
    if statut.None? || statut.value == "" then
      NoStatusCountsNowhere(statut);
      ""
    else
      var s := Lower(statut.value);
      if Contains(s, Traite) || Contains(s, Ferme) || Contains(s, Resolu) then ClassResolved
      else if Contains(s, InProgressKeyword) then ClassInProgress
      else ClassNew
  }

  /** A complaint counted as in progress on the home page shows the in-progress badge unless it is also resolved. */
  lemma BadgeAgreesWithCounters(cs: seq<Complaint>, i: int)
    requires 0 <= i < |cs|
    ensures StatusClass(cs[i].statut) == ClassResolved <==> i in (set j | 0 <= j < |cs| && IsResolved(cs[j].statut))
    ensures StatusClass(cs[i].statut) == ClassInProgress ==> i in (set j | 0 <= j < |cs| && IsInProgress(cs[j].statut))
  {
  }

  // ----- Deletion rule -----

  /** `canBeDeleted`: only a complaint still pending ("en attente", any case) can be deleted. */
  function CanBeDeleted(statut: Option<string>): (r: bool)
    ensures r <==> statut.Some? && Lower(statut.value) == PendingStatus
  {
    if statut.None? || statut.value == "" then false
    else Lower(statut.value) == PendingStatus
  }

  /** A status containing `c` is not the pending status. */
  lemma PendingLacks(statut: Option<string>, k: string, c: char)
    requires CanBeDeleted(statut) && c in k && c !in PendingStatus
    ensures !Contains(LoweredStatus(statut), k)
  {
  }

  /** A deletable complaint wears the "new" badge and is counted neither in progress nor resolved. */
  lemma DeletableIsNew(statut: Option<string>)
    requires CanBeDeleted(statut)
    ensures !IsInProgress(statut) && !IsResolved(statut)
    ensures StatusClass(statut) == ClassNew
  {
    PendingLacks(statut, InProgressKeyword, 'c');
    PendingLacks(statut, Resolu, 'r');
    PendingLacks(statut, Ferme, 'f');
    PendingLacks(statut, Traite, 'r');
  }

  // ----- Recent complaints -----

  predicate SortedByDateDesc(s: seq<Complaint>) {
    forall i, j :: 0 <= i < j < |s| ==> s[i].submittedAt >= s[j].submittedAt
  }

  /** Inserts `c` before the first element that is not more recent, keeping ties in order. */
  function InsertByDate(c: Complaint, s: seq<Complaint>): (r: seq<Complaint>)
    ensures multiset(r) == multiset(s) + multiset{c}
  {
    if s == [] || c.submittedAt >= s[0].submittedAt then [c] + s
    else
      assert s == [s[0]] + s[1..];
      [s[0]] + InsertByDate(c, s[1..])
  }

  lemma {:induction false} InsertKeepsSorted(c: Complaint, s: seq<Complaint>)
    requires SortedByDateDesc(s)
    ensures SortedByDateDesc(InsertByDate(c, s))
  {
    if s != [] && c.submittedAt < s[0].submittedAt {
      var rest := InsertByDate(c, s[1..]);
      InsertKeepsSorted(c, s[1..]);
      forall k | 0 <= k < |rest|
        ensures s[0].submittedAt >= rest[k].submittedAt
      {
        assert rest[k] in multiset(rest);
        if rest[k] != c {
          assert rest[k] in multiset(s[1..]);
          var m :| 0 <= m < |s[1..]| && s[1..][m] == rest[k];
          assert s[m + 1] == rest[k];
        }
      }
      var r := [s[0]] + rest;
      forall i, j | 0 <= i < j < |r|
        ensures r[i].submittedAt >= r[j].submittedAt
      {
        if i > 0 {
          assert r[i] == rest[i - 1] && r[j] == rest[j - 1];
        } else {
          assert r[j] == rest[j - 1];
        }
      }
    }
  }

  /** The complaints of `s` submitted at instant `d`, in their order in `s`. */
  function AtDate(s: seq<Complaint>, d: int): seq<Complaint> {
    if s == [] then [] else (if s[0].submittedAt == d then [s[0]] else []) + AtDate(s[1..], d)
  }

  /** Inserting goes in front of every complaint of the same date, so ties keep their order. */
  lemma {:induction false} InsertAtDate(c: Complaint, s: seq<Complaint>, d: int)
    ensures AtDate(InsertByDate(c, s), d) == (if c.submittedAt == d then [c] else []) + AtDate(s, d)
  {
    if s == [] || c.submittedAt >= s[0].submittedAt {
      assert ([c] + s)[1..] == s;
    } else {
      InsertAtDate(c, s[1..], d);
      assert ([s[0]] + InsertByDate(c, s[1..]))[1..] == InsertByDate(c, s[1..]);
    }
  }

  /**
   * The stable sort by submission date, most recent first, that
   * `[...data].sort((a, b) => b - a)` performs: complaints of the same date
   * keep their order in the input.
   */
  function SortByDateDesc(cs: seq<Complaint>): (r: seq<Complaint>)
    ensures SortedByDateDesc(r)
    ensures multiset(r) == multiset(cs)
    ensures forall d :: AtDate(r, d) == AtDate(cs, d)
  {
    if cs == [] then []
    else
      assert cs == [cs[0]] + cs[1..];
      var rest := SortByDateDesc(cs[1..]);
      InsertKeepsSorted(cs[0], rest);
      forall d ensures AtDate(InsertByDate(cs[0], rest), d) == AtDate(cs, d) {
        InsertAtDate(cs[0], rest, d);
      }
      InsertByDate(cs[0], rest)
  }

  const RecentLimit := 5

  /** Every element past a sorted list's prefix is no more recent than any element of the prefix. */
  lemma PrefixDominates(p: seq<Complaint>, k: nat)
    requires SortedByDateDesc(p) && k <= |p|
    ensures multiset(p) - multiset(p[..k]) == multiset(p[k..])
    ensures forall x, y :: x in multiset(p[k..]) && y in p[..k] ==> x.submittedAt <= y.submittedAt
  {
    assert p == p[..k] + p[k..];
    forall x, y | x in multiset(p[k..]) && y in p[..k]
      ensures x.submittedAt <= y.submittedAt
    {
      var j :| 0 <= j < |p[k..]| && p[k..][j] == x;
      var i :| 0 <= i < k && p[..k][i] == y;
      assert p[k + j] == x && p[i] == y;
    }
  }

  /**
   * `recentComplaints`: the at most five most recent complaints, most recent
   * first. Every complaint left out is no more recent than any one kept.
   */
  function RecentComplaints(cs: seq<Complaint>): (r: seq<Complaint>)
    ensures |r| == if |cs| < RecentLimit then |cs| else RecentLimit
    ensures SortedByDateDesc(r)
    ensures multiset(r) <= multiset(cs)
    ensures forall x, y :: x in multiset(cs) - multiset(r) && y in r ==> x.submittedAt <= y.submittedAt
  {
    var sorted := SortByDateDesc(cs);
    var k := if |sorted| < RecentLimit then |sorted| else RecentLimit;
    PrefixOfSorted(sorted, k);
    sorted[..k]
  }

  /** Every recent complaint is one of the complaints. */
  lemma RecentAreListed(cs: seq<Complaint>)
    ensures forall c :: c in RecentComplaints(cs) ==> c in cs
  {
  }

  /** A prefix of a sorted list is sorted, part of the list, and dominates the rest. */
  lemma PrefixOfSorted(p: seq<Complaint>, k: nat)
    requires SortedByDateDesc(p) && k <= |p|
    ensures SortedByDateDesc(p[..k])
    ensures multiset(p[..k]) <= multiset(p)
    ensures forall x, y :: x in multiset(p) - multiset(p[..k]) && y in p[..k] ==> x.submittedAt <= y.submittedAt
  {
    PrefixDominates(p, k);
    assert p == p[..k] + p[k..];
  }
}

=== FILE: dashboard.dfy ===
/**
 * The dashboard component's state and the handlers that change it. Each
 * `subscribe` callback is its own transition; the service calls they follow
 * are not modelled, only what the callbacks do with the replies.
 */
module Dashboard {
  import opened Optional
  import opened Text
  import opened Claims
  import opened AuthService
  import opened Complaints
  import Lists

  datatype View = Accueil | Soumettre | Suivre

  /** A status as the detail endpoint returns it. */
  datatype Statut = Statut(id: int, nom: string)

  /** The complaint opened in the detail view. */
  datatype ComplaintDetail = ComplaintDetail(id: int, statut: Option<Statut>)

  datatype State = State(
    activeLink: View,
    currentUser: Option<User>,
    userNameOnly: string,
    complaints: seq<Complaint>,
    isLoading: bool,
    listErrorMessage: string,
    stats: Stats,
    recent: seq<Complaint>,
    selected: Option<ComplaintDetail>,
    comments: seq<Comment>,
    isUserAdmin: bool)

  const DefaultUserName := "Utilisateur"
  const LoadErrorMessage := "Erreur lors du chargement des réclamations."

  /** The component as constructed, before `ngOnInit`. */
  const Initial := State(Accueil, None, DefaultUserName, [], true, "", Stats(0, 0, 0), [], None, [], false)

  /** The home-page counters describe the complaint list currently held. */
  predicate StatsCurrent(st: State) {
    st.stats == CalculateStats(st.complaints)
  }

  /** The recent list is the top five of the complaint list currently held. */
  predicate RecentCurrent(st: State) {
    st.recent == RecentComplaints(st.complaints)
  }

  function ComplaintId(c: Complaint): int { c.id }

  function CommentId(c: Comment): int { c.id }

  // ----- Initialisation and navigation -----

  /**
   * The greeting name: the user's name when present, else the part of the
   * email before the first '@', else `previous` (initially "Utilisateur").
   */
  function DisplayName(user: User, previous: string): (r: string)
    ensures user.name.Some? && user.name.value != "" ==> r == user.name.value
    ensures (user.name.None? || user.name.value == "") && user.email.Some? && user.email.value != "" ==>
              && r <= user.email.value
              && '@' !in r
              && (|r| < |user.email.value| ==> user.email.value[|r|] == '@')
    ensures (user.name.None? || user.name.value == "") && (user.email.None? || user.email.value == "") ==>
              r == previous
  {
    if user.name.Some? && user.name.value != "" then user.name.value
    else if user.email.Some? && user.email.value != "" then BeforeFirst(user.email.value, '@')
    else previous
  }

  /** `setView`: switches the section and closes the detail view; nothing else changes. */
  function SetView(st: State, link: View): (r: State)
    ensures r.activeLink == link && r.selected.None?
    ensures r.(activeLink := st.activeLink, selected := st.selected) == st
  {
    st.(selected := None, activeLink := link)
  }

  /** `backToList`: back on the complaint list with no complaint open and no comments held. */
  function BackToList(st: State): (r: State)
    ensures r.activeLink == Suivre && r.selected.None? && r.comments == []
    ensures r.(activeLink := st.activeLink, selected := st.selected, comments := st.comments) == st
  {
    SetView(st.(selected := None, comments := []), Suivre)
  }

  /**
   * `ngOnInit` up to the start of the complaint load: the admin flag and the
   * user are read once from the session, the home section is shown and the
   * greeting name is derived.
   */
  function OnInit(store: Store, decode: Decoder): (r: State)
    ensures r.isUserAdmin <==> IsAdmin(store, decode)
    ensures r.currentUser == Some(GetCurrentUser(store, decode))
    ensures r.activeLink == Accueil && r.selected.None?
    ensures r.userNameOnly == DisplayName(GetCurrentUser(store, decode), DefaultUserName)
    ensures r.isLoading && r.listErrorMessage == ""
    ensures r.complaints == [] && r.comments == []
    ensures StatsCurrent(r) && RecentCurrent(r)
  {
    var user := GetCurrentUser(store, decode);
    var st := SetView(Initial.(isUserAdmin := IsAdmin(store, decode), currentUser := Some(user)), Accueil);
    st.(userNameOnly := DisplayName(user, st.userNameOnly), isLoading := true, listErrorMessage := "")
  }

  /** Without a session the greeting stays "Utilisateur" and the admin flag is off. */
  lemma AnonymousGreeting(decode: Decoder)
    ensures OnInit(None, decode).userNameOnly == DefaultUserName
    ensures !OnInit(None, decode).isUserAdmin
  {
  }

  // ----- Loading the list -----

  /** The success callback of `loadComplaints`. */
  function OnComplaintsLoaded(st: State, data: seq<Complaint>): (r: State)
    ensures r.complaints == data && !r.isLoading
    ensures StatsCurrent(r) && RecentCurrent(r)
    ensures r.stats.total == |data|
    ensures |r.recent| <= RecentLimit && multiset(r.recent) <= multiset(data)
    ensures r.(complaints := st.complaints, stats := st.stats, recent := st.recent, isLoading := st.isLoading) == st
  {
    st.(complaints := data, stats := CalculateStats(data), recent := RecentComplaints(data), isLoading := false)
  }

  /** The error callback of `loadComplaints`: the list is kept, the error shown. */
  function OnComplaintsLoadFailed(st: State): (r: State)
    ensures r.listErrorMessage == LoadErrorMessage && !r.isLoading
    ensures r.(listErrorMessage := st.listErrorMessage, isLoading := st.isLoading) == st
  {
    st.(listErrorMessage := LoadErrorMessage, isLoading := false)
  }

  // ----- Deleting -----

  /**
   * The success callback of `onDeleteComplaint` as written: the complaint is
   * dropped from the list and the counters recomputed, but the recent list is
   * left as it was.
   */
  function OnComplaintDeleted(st: State, id: int): (r: State)
    ensures r.complaints == Lists.Without(st.complaints, ComplaintId, id)
    ensures forall c :: c in r.complaints ==> c.id != id
    ensures forall c :: c in st.complaints && c.id != id ==> c in r.complaints
    ensures StatsCurrent(r)
    ensures r.recent == st.recent
    ensures r.(complaints := st.complaints, stats := st.stats) == st
  {
    var remaining := Lists.Without(st.complaints, ComplaintId, id);
    Lists.WithoutMembers(st.complaints, ComplaintId, id);
    st.(complaints := remaining, stats := CalculateStats(remaining))
  }

  /** The total drops by exactly the number of complaints that carried the id. */
  lemma DeleteUpdatesTotal(st: State, id: int)
    ensures OnComplaintDeleted(st, id).stats.total == |st.complaints| - Lists.Count(st.complaints, Lists.HasId(ComplaintId, id))
  {
    Lists.WithoutSize(st.complaints, ComplaintId, id);
  }

  /**
   * The recent list can keep a complaint that has just been deleted: load one
   * complaint, delete it, and it is gone from the list but still recent.
   */
  lemma DeletedComplaintStaysRecent()
    ensures var c := Complaint(7, "Panne", Some("En attente"), 0);
      var r := OnComplaintDeleted(OnComplaintsLoaded(Initial, [c]), 7);
      c !in r.complaints && c in r.recent && !RecentCurrent(r)
  {
  }

  /**
   * The delete callback with the recent list derived again from the remaining
   * complaints, so that it never shows a deleted complaint.
   */
  function OnComplaintDeletedRefreshed(st: State, id: int): (r: State)
    ensures r.complaints == Lists.Without(st.complaints, ComplaintId, id)
    ensures StatsCurrent(r) && RecentCurrent(r)
    ensures forall c :: c in r.recent ==> c in st.complaints && c.id != id
    ensures r.(complaints := st.complaints, stats := st.stats, recent := st.recent) == st
  {
    var remaining := Lists.Without(st.complaints, ComplaintId, id);
    RefreshedRecentOmitsId(st.complaints, id);
    st.(complaints := remaining, stats := CalculateStats(remaining), recent := RecentComplaints(remaining))
  }

  /** The recent list derived after a delete holds only listed complaints with another id. */
  lemma RefreshedRecentOmitsId(cs: seq<Complaint>, id: int)
    ensures forall c :: c in RecentComplaints(Lists.Without(cs, ComplaintId, id)) ==> c in cs && c.id != id
  {
    var remaining := Lists.Without(cs, ComplaintId, id);
    Lists.WithoutMembers(cs, ComplaintId, id);
    RecentAreListed(remaining);
  }

  /** The success callback of `onDeleteComment`: the comment goes, the others stay in order. */
  function OnCommentDeleted(st: State, id: int): (r: State)
    ensures r.comments == Lists.Without(st.comments, CommentId, id)
    ensures forall c :: c in r.comments ==> c.id != id
    ensures forall c :: c in st.comments && c.id != id ==> c in r.comments
    ensures r.(comments := st.comments) == st
  {
    Lists.WithoutMembers(st.comments, CommentId, id);
    st.(comments := Lists.Without(st.comments, CommentId, id))
  }

  // ----- Comments -----

  /** The comment form: its validity, content and the optional privacy box. */
  datatype CommentForm = CommentForm(valid: bool, contenu: string, estPrive: Option<bool>)

  /** The comment posted for a complaint. */
  datatype CommentRequest = CommentRequest(complaintId: int, contenu: string, estPrive: bool)

  /**
   * `onAddComment`: nothing is sent for an invalid form or with no complaint
   * open; only an admin can mark a comment private, and it is public unless
   * the box is ticked.
   */
  function AddComment(st: State, form: CommentForm): (r: Option<CommentRequest>)
    ensures r.Some? <==> form.valid && st.selected.Some?
    ensures r.Some? ==> r.value.complaintId == st.selected.value.id && r.value.contenu == form.contenu
    ensures r.Some? ==> (r.value.estPrive <==> st.isUserAdmin && form.estPrive == Some(true))
  {
    if !form.valid || st.selected.None? then None
    else
      var estPrive := if st.isUserAdmin then form.estPrive.GetOr(false) else false;
      Some(CommentRequest(st.selected.value.id, form.contenu, estPrive))
  }

  /**
   * `canDeleteComment`, for the complaint open in the detail view: an admin
   * may delete any comment; anyone else only their own, and only while the
   * complaint is pending.
   */
  function CanDeleteComment(st: State, store: Store, decode: Decoder, comment: Comment): (r: bool)
    requires st.selected.Some?
    ensures r <==> st.isUserAdmin ||
                   (&& GetUserId(store, decode) == Some(comment.auteurId)
                    && st.selected.value.statut.Some?
                    && CanBeDeleted(Some(st.selected.value.statut.value.nom)))
  {
    if st.isUserAdmin then true
    else
      var isOwner := GetUserId(store, decode) == Some(comment.auteurId);
      var isPending := st.selected.value.statut.Some? && Lower(st.selected.value.statut.value.nom) == PendingStatus;
      isOwner && isPending
  }

  /**
   * "Admin" in the dashboard means the Admin role only: an Assigne, despite
   * admin rights elsewhere, posts public comments and deletes only their own
   * comments on pending complaints.
   */
  lemma AssigneIsNotDashboardAdmin(store: Store, decode: Decoder, form: CommentForm, detail: ComplaintDetail, comment: Comment)
    requires IsAssigne(store, decode)
    ensures HasAdminRights(store, decode)
    ensures var st := OnInit(store, decode).(selected := Some(detail));
      && (AddComment(st, form).Some? ==> !AddComment(st, form).value.estPrive)
      && (CanDeleteComment(st, store, decode, comment) ==> GetUserId(store, decode) == Some(comment.auteurId))
  {
  }
}

=== FILE: forms.dfy ===
/** What the three login and registration forms share: field validators and the error message rule. */
module Forms {
  import Lists

  /** The `error` field of a failed HTTP reply: text, or anything else (object, null). */
  datatype ErrorBody = TextBody(text: string) | OtherBody

  const IncorrectCredentials := "Email ou mot de passe incorrect."

  /**
   * `err.error && typeof err.error === 'string' ? err.error : fallback`: the
   * server's own text when it sent non-empty text, the fixed message otherwise.
   */
  function ErrorMessage(body: ErrorBody, fallback: string): (m: string)
    ensures body.TextBody? && body.text != "" ==> m == body.text
    ensures !(body.TextBody? && body.text != "") ==> m == fallback
    ensures m == fallback || body == TextBody(m)
  {
    match body
    case TextBody(text) => if text != "" then text else fallback
    case OtherBody => fallback
  }

  /** `Validators.required` on a text field. */
  predicate Required(value: string) {
    value != ""
  }

  /** `Validators.email`: an empty value passes; `isEmail` is the validator's pattern. */
  predicate EmailValid(value: string, isEmail: string -> bool) {
    value == "" || isEmail(value)
  }

  /**
   * JavaScript's `length`: the number of UTF-16 code units, so a character
   * outside the Basic Multilingual Plane counts twice.
   */
  function Utf16Length(s: string): (n: nat)
    ensures |s| <= n <= 2 * |s|
  {
    if s == [] then 0
    else Utf16Length(s[..|s| - 1]) + (if s[|s| - 1] as int >= 0x1_0000 then 2 else 1)
  }

  /** Within the Basic Multilingual Plane the JavaScript length is the number of characters. */
  lemma {:induction false} Utf16LengthOfBmp(s: string)
    requires forall i :: 0 <= i < |s| ==> s[i] as int < 0x1_0000
    ensures Utf16Length(s) == |s|
  {
    if s != [] {
      var prefix := s[..|s| - 1];
      assert forall i :: 0 <= i < |prefix| ==> prefix[i] == s[i];
      Utf16LengthOfBmp(prefix);
    }
  }

  /** Every character at or above U+10000 adds one code unit to the character count. */
  lemma {:induction false} Utf16LengthCountsSupplementary(s: string)
    ensures Utf16Length(s) == |s| + Lists.Count(s, (c: char) => c as int >= 0x1_0000)
  {
    if s != [] {
      Utf16LengthCountsSupplementary(s[..|s| - 1]);
    }
  }

  /** `Validators.minLength(n)`: an empty value passes (it is `required`'s business). */
  predicate MinLength(value: string, n: nat) {
    value == "" || Utf16Length(value) >= n
  }
}

=== FILE: guards.dfy ===
/**
 * The route guard and the route table it sits in. A navigation is decided
 * synchronously: allowed, or not shown and sent elsewhere: to the login page by
 * the guard, to the home page by the catch-all route.
 */
module Guards {
  import opened Optional
  import opened Claims
  import opened AuthService

  datatype Decision = Decision(allow: bool, redirect: Option<string>)

  /** `authGuard` at wall-clock time `now` (milliseconds). */
  function AuthGuard(store: Store, decode: Decoder, now: int): (d: Decision)
    ensures d.allow <==> IsLoggedIn(store, decode, now)
    ensures !d.allow ==> d.redirect == Some(LoginPath)
    ensures d.allow ==> d.redirect.None?
  {
    if IsLoggedIn(store, decode, now) then Decision(true, None)
    else Decision(false, Some(LoginPath))
  }

  /** The paths the route table declares, written without the leading '/'. */
  const DeclaredPaths := ["", "portal", "login", "register", "dashboard"]

  /** Where the catch-all route `'**'` sends every other path: the home page. */
  const HomePath := ""

  /**
   * The route table for a one-segment path, matched exactly and with case:
   * "dashboard" goes through the guard, the other declared paths are open,
   * and any other path is redirected to the home page.
   */
  function Activate(path: string, store: Store, decode: Decoder, now: int): (d: Decision)
    ensures path == "dashboard" ==> d == AuthGuard(store, decode, now)
    ensures path in DeclaredPaths && path != "dashboard" ==> d == Decision(true, None)
    ensures path !in DeclaredPaths ==> d == Decision(false, Some(HomePath))
    ensures d.allow ==> path in DeclaredPaths
  {
    if path == "dashboard" then AuthGuard(store, decode, now)
    else if path in DeclaredPaths then Decision(true, None)
    else Decision(false, Some(HomePath))
  }

  /**
   * Paths the table does not declare land on the open home page, whatever the
   * session: a different case or an extra segment is not the dashboard.
   */
  lemma UnknownPathsGoHome(store: Store, decode: Decoder, now: int)
    ensures Activate("no-such-page", store, decode, now) == Decision(false, Some(HomePath))
    ensures Activate("Dashboard", store, decode, now) == Decision(false, Some(HomePath))
    ensures Activate("dashboard/x", store, decode, now) == Decision(false, Some(HomePath))
    ensures Activate(HomePath, store, decode, now) == Decision(true, None)
  {
  }

  /** A navigation target as the route table sees it: without the leading '/'. */
  function RoutePath(url: string): string {
    if |url| > 0 && url[0] == '/' then url[1..] else url
  }

  /** A redirect never bounces again: wherever it leads is open to the same session. */
  lemma RedirectsLandOnOpenRoutes(path: string, store: Store, decode: Decoder, now: int)
    ensures var d := Activate(path, store, decode, now);
      d.redirect.Some? ==> Activate(RoutePath(d.redirect.value), store, decode, now) == Decision(true, None)
  {
  }

  /**
   * The guard looks at nothing but `isLoggedIn`: two sessions that agree on it
   * get the same decision, whatever their roles.
   */
  lemma GuardIgnoresRoles(s1: Store, d1: Decoder, n1: int, s2: Store, d2: Decoder, n2: int)
    requires IsLoggedIn(s1, d1, n1) == IsLoggedIn(s2, d2, n2)
    ensures AuthGuard(s1, d1, n1) == AuthGuard(s2, d2, n2)
  {
  }

  /** With no token the dashboard is refused and the login page requested. */
  lemma AnonymousIsRedirected(decode: Decoder, now: int)
    ensures Activate("dashboard", None, decode, now) == Decision(false, Some(LoginPath))
  {
  }

  /** After logout the dashboard is refused. */
  lemma LogoutClosesDashboard(decode: Decoder, now: int)
    ensures !Activate("dashboard", Logout().store, decode, now).allow
  {
  }
}

=== FILE: interceptors.dfy ===
/**
 * The outgoing-request hook: every request leaves with the stored token as a
 * bearer credential, in the `Authorization: Bearer <token>` form of section
 * 2.1 of RFC 6750, or unchanged when no token is stored.
 */
module Interceptors {
  import opened Optional
  import opened AuthService

  datatype HttpRequest = HttpRequest(verb: string, url: string, headers: map<string, string>, body: Option<string>)

  const AuthorizationHeader := "Authorization"
  const BearerPrefix := "Bearer "

  function BearerCredentials(token: string): string {
    BearerPrefix + token
  }

  /** How a resource server reads the header back: the token after the scheme. */
  function ParseBearer(header: string): Option<string> {
    if |header| >= |BearerPrefix| && header[..|BearerPrefix|] == BearerPrefix
    then Some(header[|BearerPrefix|..])
    else None
  }

  lemma BearerRoundTrip(token: string)
    ensures ParseBearer(BearerCredentials(token)) == Some(token)
  {
  }

  /**
   * `tokenInterceptor`: the one request handed on. With a non-empty token it is
   * the original with its `Authorization` header set; otherwise it is the
   * original itself.
   */
  function TokenInterceptor(req: HttpRequest, store: Store): (fwd: HttpRequest)
    ensures CurrentToken(store).Some? ==>
              && AuthorizationHeader in fwd.headers
              && ParseBearer(fwd.headers[AuthorizationHeader]) == CurrentToken(store)
    ensures CurrentToken(store).None? ==> fwd == req
    ensures fwd.verb == req.verb && fwd.url == req.url && fwd.body == req.body
    ensures fwd.headers - {AuthorizationHeader} == req.headers - {AuthorizationHeader}
    ensures fwd.headers.Keys == req.headers.Keys + (if CurrentToken(store).Some? then {AuthorizationHeader} else {})
  {
    match CurrentToken(store)
    case Some(t) =>
      BearerRoundTrip(t);
      req.(headers := req.headers[AuthorizationHeader := BearerCredentials(t)])
    case None => req
  }

  /** Token "abc" yields exactly the header `Authorization: Bearer abc`. */
  lemma BearerHeaderExample(req: HttpRequest)
    ensures TokenInterceptor(req, Some("abc")).headers[AuthorizationHeader] == "Bearer abc"
    ensures TokenInterceptor(req, None) == req
    ensures TokenInterceptor(req, Some("")) == req
  {
  }

  /**
   * The hook never consults the expiry: an expired token is still sent.
   */
  lemma ExpiredTokenStillSent(req: HttpRequest, token: string, decode: Claims.Decoder, now: int)
    requires token != ""
    requires !IsLoggedIn(Some(token), decode, now)
    ensures TokenInterceptor(req, Some(token)).headers[AuthorizationHeader] == BearerCredentials(token)
  {
  }
}

=== FILE: lists.dfy ===
/** Counting and removing by id over the lists the dashboard keeps. */
module Lists {

  /** `xs.filter(p).length`. */
  function Count<T>(xs: seq<T>, p: T -> bool): (n: nat)
    ensures n <= |xs|
    ensures n == 0 <==> forall i :: 0 <= i < |xs| ==> !p(xs[i])
    ensures n == |xs| <==> forall i :: 0 <= i < |xs| ==> p(xs[i])
  {
    if xs == [] then 0 else Count(xs[..|xs| - 1], p) + (if p(xs[|xs| - 1]) then 1 else 0)
  }

  /** The positions of `xs` whose element satisfies `p`. */
  ghost function Indices<T>(xs: seq<T>, p: T -> bool): set<int> {
    set i | 0 <= i < |xs| && p(xs[i])
  }

  /** The count is the number of positions that satisfy the test. */
  lemma {:induction false} CountIsCardinality<T>(xs: seq<T>, p: T -> bool)
    ensures Count(xs, p) == |Indices(xs, p)|
  {
    if xs != [] {
      var n := |xs| - 1;
      CountIsCardinality(xs[..n], p);
      assert Indices(xs, p) == Indices(xs[..n], p) + (if p(xs[n]) then {n} else {});
    }
  }

  /** The test "carries this id". */
  function HasId<T>(idOf: T -> int, id: int): T -> bool {
    x => idOf(x) == id
  }

  /** `xs.filter(x => idOf(x) !== id)`: the elements whose id differs, in order. */
  function Without<T>(xs: seq<T>, idOf: T -> int, id: int): (r: seq<T>)
    ensures |r| <= |xs|
    ensures forall i :: 0 <= i < |r| ==> idOf(r[i]) != id
  {
    if xs == [] then []
    else
      var n := |xs| - 1;
      Without(xs[..n], idOf, id) + (if idOf(xs[n]) == id then [] else [xs[n]])
  }

  /** Exactly the elements with another id are kept. */
  lemma {:induction false} WithoutMembers<T>(xs: seq<T>, idOf: T -> int, id: int)
    ensures forall x :: x in Without(xs, idOf, id) <==> x in xs && idOf(x) != id
  {
    if xs != [] {
      var n := |xs| - 1;
      WithoutMembers(xs[..n], idOf, id);
      assert xs == xs[..n] + [xs[n]];
    }
  }

  /** Removing distributes over concatenation, so the kept elements stay in their order. */
  lemma {:induction false} WithoutAppend<T>(a: seq<T>, b: seq<T>, idOf: T -> int, id: int)
    ensures Without(a + b, idOf, id) == Without(a, idOf, id) + Without(b, idOf, id)
    decreases |b|
  {
    if b == [] {
      assert a + b == a;
    } else {
      var n := |b| - 1;
      assert (a + b)[..|a + b| - 1] == a + b[..n];
      WithoutAppend(a, b[..n], idOf, id);
    }
  }

  /** Exactly the matching elements go: the length drops by their number. */
  lemma {:induction false} WithoutSize<T>(xs: seq<T>, idOf: T -> int, id: int)
    ensures |Without(xs, idOf, id)| == |xs| - Count(xs, HasId(idOf, id))
  {
    if xs != [] {
      WithoutSize(xs[..|xs| - 1], idOf, id);
    }
  }

  /** Removing twice removes nothing more. */
  lemma {:induction false} WithoutIdempotent<T>(xs: seq<T>, idOf: T -> int, id: int)
    ensures Without(Without(xs, idOf, id), idOf, id) == Without(xs, idOf, id)
  {
    if xs != [] {
      var n := |xs| - 1;
      var w := Without(xs[..n], idOf, id);
      WithoutIdempotent(xs[..n], idOf, id);
      var tail := if idOf(xs[n]) == id then [] else [xs[n]];
      WithoutAppend(w, tail, idOf, id);
    }
  }

  /** A list without the id is left as it is. */
  lemma {:induction false} WithoutAbsent<T>(xs: seq<T>, idOf: T -> int, id: int)
    requires forall i :: 0 <= i < |xs| ==> idOf(xs[i]) != id
    ensures Without(xs, idOf, id) == xs
  {
    if xs != [] {
      var n := |xs| - 1;
      var prefix := xs[..n];
      assert forall i :: 0 <= i < |prefix| ==> idOf(prefix[i]) != id by {
        forall i | 0 <= i < |prefix| ensures idOf(prefix[i]) != id {
          assert prefix[i] == xs[i];
        }
      }
      WithoutAbsent(prefix, idOf, id);
      assert idOf(xs[n]) != id;
      assert Without(xs, idOf, id) == Without(prefix, idOf, id) + [xs[n]];
      assert xs == prefix + [xs[n]];
    }
  }
}

=== FILE: login.dfy ===
/**
 * The login form. It can be opened for the support team (navigation state
 * `userType: 'admin'`), in which case only Admin and Assigne may go on to the
 * dashboard.
 */
module LoginComponent {
  import opened Optional
  import opened Claims
  import opened AuthService
  import opened Forms

  datatype Form = Form(email: string, password: string, rememberMe: bool)

  datatype State = State(isLoading: bool, touched: bool, isForAdmin: bool)

  const SupportOnly := "Accès refusé. Cette zone est réservée à l'équipe de support."

  /** The constructor, given the `userType` of the navigation state, if any. */
  function Create(userType: Option<string>): (st: State)
    ensures st.isForAdmin <==> userType == Some("admin")
    ensures !st.isLoading && !st.touched
  {
    State(false, false, userType == Some("admin"))
  }

  /** Email required and well-formed, password required. */
  predicate FormValid(form: Form, isEmail: string -> bool)
    ensures FormValid(form, isEmail) <==> form.email != "" && isEmail(form.email) && form.password != ""
  {
    Required(form.email) && EmailValid(form.email, isEmail) && Required(form.password)
  }

  /** The form a login payload was built from, up to the "remember me" box. */
  function FormOf(request: LoginRequest, rememberMe: bool): Form {
    Form(request.Email, request.MotDePasse, rememberMe)
  }

  datatype Submitted = Submitted(state: State, request: Option<LoginRequest>)

  /**
   * `onSubmit`: an invalid form is only marked touched; a valid one starts
   * loading and posts exactly its email and password.
   */
  function OnSubmit(st: State, form: Form, isEmail: string -> bool): (r: Submitted)
    ensures r.request.Some? <==> FormValid(form, isEmail)
    ensures !FormValid(form, isEmail) ==> r.state == st.(touched := true)
    ensures FormValid(form, isEmail) ==> r.state == st.(isLoading := true)
    ensures r.request.Some? ==> FormOf(r.request.value, form.rememberMe) == form
  {
    if !FormValid(form, isEmail) then Submitted(st.(touched := true), None)
    else Submitted(st.(isLoading := true), Some(LoginRequest(form.email, form.password)))
  }

  /** What a reply leaves behind: the component, the token cell, the navigation, the error shown. */
  datatype Outcome = Outcome(state: State, store: Store, navigation: Option<string>, error: Option<string>)

  /**
   * A successful login reply: the service stores the token, then `next`
   * decides on the store it sees, then `complete` ends loading. For the
   * support team, a user without Admin or Assigne is logged out again, which
   * sends them to the login page, and shown a refusal.
   */
  function OnLoginSuccess(st: State, store: Store, response: LoginResponse, decode: Decoder): (r: Outcome)
    ensures var s := StoreLoginToken(store, response);
      && (r.navigation == Some(DashboardPath) <==> !st.isForAdmin || IsAdmin(s, decode) || IsAssigne(s, decode))
      && (r.navigation == Some(DashboardPath) ==> r.store == s && r.error.None?)
      && (r.navigation != Some(DashboardPath) ==> r.store.None? && r.navigation == Some(LoginPath) && r.error == Some(SupportOnly))
    ensures r.state == st.(isLoading := false)
  {
    var s := StoreLoginToken(store, response);
    var done := st.(isLoading := false);
    if st.isForAdmin then
      if IsAdmin(s, decode) || IsAssigne(s, decode) then Outcome(done, s, Some(DashboardPath), None)
      else
        var out := Logout();
        Outcome(done, out.store, out.navigation, Some(SupportOnly))
    else Outcome(done, s, Some(DashboardPath), None)
  }

  /** A failed login: the server's text or the fixed message, and loading ends. */
  function OnLoginError(st: State, store: Store, err: ErrorBody): (r: Outcome)
    ensures r.error == Some(ErrorMessage(err, IncorrectCredentials))
    ensures r.state == st.(isLoading := false)
    ensures r.store == store && r.navigation.None?
  {
    Outcome(st.(isLoading := false), store, None, Some(ErrorMessage(err, IncorrectCredentials)))
  }

  /**
   * On the support-team form, whoever reaches the dashboard has admin rights
   * under the token then stored; whoever is refused is logged out at every
   * instant and anonymous.
   */
  lemma SupportFormAdmitsAdminRights(st: State, store: Store, response: LoginResponse, decode: Decoder, now: int)
    requires st.isForAdmin
    ensures var r := OnLoginSuccess(st, store, response, decode);
      r.navigation == Some(DashboardPath) ==> HasAdminRights(r.store, decode)
    ensures var r := OnLoginSuccess(st, store, response, decode);
      r.navigation != Some(DashboardPath) ==> !IsLoggedIn(r.store, decode, now) && GetCurrentUser(r.store, decode) == AnonymousUser
  {
  }
}

=== FILE: optional.dfy ===
/** The absent-or-present value that stands for TypeScript's `T | null`. */
module Optional {

  datatype Option<+T> = None | Some(value: T) {

    /** The value, or `fallback` when absent (TypeScript's `x ?? fallback`). */
    function GetOr(fallback: T): T {
      match this
      case Some(v) => v
      case None => fallback
    }
  }
}

=== FILE: register.dfy ===
/** The sign-up form: username and password required, email optional. */
module RegisterComponent {
  import opened Optional
  import opened Forms
  import opened AuthService

  datatype Form = Form(username: string, email: string, password: string)

  /** The body posted to the registration endpoint. */
  datatype RegisterRequest = RegisterRequest(Nom: string, Email: string, MotDePasse: string)

  datatype State = State(isLoading: bool, touched: bool)

  const MinPasswordLength := 6
  const RegisterFailed := "L'email est peut-être déjà utilisé ou une erreur est survenue."

  predicate FormValid(form: Form, isEmail: string -> bool) {
    && Required(form.username)
    && EmailValid(form.email, isEmail)
    && Required(form.password) && MinLength(form.password, MinPasswordLength)
  }

  /**
   * The form is valid exactly with a username, a password of six UTF-16 code
   * units or more, and no or a well-formed email.
   */
  lemma ValidityRule(form: Form, isEmail: string -> bool)
    ensures FormValid(form, isEmail) <==>
              form.username != "" && Utf16Length(form.password) >= 6 && (form.email == "" || isEmail(form.email))
  {
  }

  /**
   * Length is counted as JavaScript counts it: three emoji make six code
   * units and pass, while five accented letters stay too short.
   */
  lemma PasswordLengthInCodeUnits(isEmail: string -> bool)
    ensures FormValid(Form("u", "", "\U{1F600}\U{1F600}\U{1F600}"), isEmail)
    ensures !FormValid(Form("u", "", "\U{E9}\U{E9}\U{E9}\U{E9}\U{E9}"), isEmail)
  {
    var smiles := "\U{1F600}\U{1F600}\U{1F600}";
    assert smiles[..2][..1][..0] == "";
    assert Utf16Length(smiles[..2][..1]) == 2;
    assert Utf16Length(smiles[..2]) == 4;
    assert Utf16Length(smiles) == 6;
    Utf16LengthOfBmp("\U{E9}\U{E9}\U{E9}\U{E9}\U{E9}");
  }

  /** The form a registration payload was built from. */
  function FormOf(request: RegisterRequest): Form {
    Form(request.Nom, request.Email, request.MotDePasse)
  }

  datatype Submitted = Submitted(state: State, request: Option<RegisterRequest>)

  /**
   * `onSubmit`: an invalid form is only marked touched; a valid one starts
   * loading and posts username as Nom, email as Email, password as MotDePasse.
   */
  function OnSubmit(st: State, form: Form, isEmail: string -> bool): (r: Submitted)
    ensures r.request.Some? <==> FormValid(form, isEmail)
    ensures !FormValid(form, isEmail) ==> r.state == st.(touched := true)
    ensures FormValid(form, isEmail) ==> r.state == st.(isLoading := true)
    ensures r.request.Some? ==> FormOf(r.request.value) == form
  {
    if !FormValid(form, isEmail) then Submitted(st.(touched := true), None)
    else Submitted(st.(isLoading := true), Some(RegisterRequest(form.username, form.email, form.password)))
  }

  datatype Outcome = Outcome(state: State, navigation: Option<string>, error: Option<string>)

  /** A successful registration (`next`, then `complete`): on to the login page, loading over. */
  function OnRegisterSuccess(st: State): (r: Outcome)
    ensures r.navigation == Some(LoginPath) && r.error.None?
    ensures r.state == st.(isLoading := false)
  {
    Outcome(st.(isLoading := false), Some(LoginPath), None)
  }

  /** A failed registration: the server's text or the fixed message; no navigation, loading over. */
  function OnRegisterError(st: State, err: ErrorBody): (r: Outcome)
    ensures r.error == Some(ErrorMessage(err, RegisterFailed))
    ensures r.navigation.None? && r.state == st.(isLoading := false)
  {
    Outcome(st.(isLoading := false), None, Some(ErrorMessage(err, RegisterFailed)))
  }

  /** A valid submission is loading until its reply, and not after it, whatever the reply. */
  lemma LoadingSpansTheRequest(st: State, form: Form, isEmail: string -> bool, err: ErrorBody)
    requires FormValid(form, isEmail)
    ensures var s := OnSubmit(st, form, isEmail).state;
      && s.isLoading
      && !OnRegisterSuccess(s).state.isLoading
      && !OnRegisterError(s, err).state.isLoading
  {
  }
}

=== FILE: text.dfy ===
/**
 * The string primitives the client relies on: lower-casing, `includes`,
 * `split(sep)[0]`, and the numeric coercion `+s` applied to claim values.
 */
module Text {
  import opened Optional

  /** `String.prototype.toLowerCase`, restricted to ASCII letters. */
  function LowerChar(c: char): char {
    if 'A' <= c <= 'Z' then (c as int + 32) as char else c
  }

  function Lower(s: string): (r: string)
    ensures |r| == |s|
    ensures forall i :: 0 <= i < |s| ==> r[i] == LowerChar(s[i])
  {
    seq(|s|, i requires 0 <= i < |s| => LowerChar(s[i]))
  }

  /** `sub` occurs in `s` starting at index `i`. */
  predicate OccursAt(s: string, sub: string, i: int) {
    0 <= i <= |s| - |sub| && s[i..i + |sub|] == sub
  }

  /** `s.includes(sub)`. */
  predicate Contains(s: string, sub: string) {
    exists i :: 0 <= i <= |s| - |sub| && OccursAt(s, sub, i)
  }

  /**
   * `s.split(sep)[0]`: the part of `s` before the first `sep`, or the whole
   * of `s` when `sep` does not occur in it.
   */
  function BeforeFirst(s: string, sep: char): (r: string)
    ensures r <= s
    ensures sep !in r
    ensures |r| < |s| ==> s[|r|] == sep
    ensures sep !in s ==> r == s
  {
    if s == [] then []
    else if s[0] == sep then []
    else [s[0]] + BeforeFirst(s[1..], sep)
  }

  /** When `sep` occurs, `s` is the prefix, `sep`, then the rest: nothing is lost. */
  lemma BeforeFirstSplits(s: string, sep: char)
    requires sep in s
    ensures var r := BeforeFirst(s, sep); s == r + [sep] + s[|r| + 1..]
  {
  }

  // ----- Decimal digits -----

  predicate IsDigit(c: char) {
    '0' <= c <= '9'
  }

  predicate AllDigits(s: string) {
    forall i :: 0 <= i < |s| ==> IsDigit(s[i])
  }

  function DigitValue(c: char): nat
    requires IsDigit(c)
  {
    c as int - '0' as int
  }

  function DigitChar(d: nat): (c: char)
    requires d < 10
    ensures IsDigit(c) && DigitValue(c) == d
  {
    ('0' as int + d) as char
  }

  /** The value of a run of decimal digits, most significant first. */
  function ParseDigits(s: string): nat
    requires AllDigits(s)
    decreases |s|
  {
    if s == [] then 0 else ParseDigits(s[..|s| - 1]) * 10 + DigitValue(s[|s| - 1])
  }

  /** The decimal rendering of `n` without leading zeros. */
  function ShowNat(n: nat): (r: string)
    ensures |r| > 0 && AllDigits(r)
  {
    if n < 10 then [DigitChar(n)] else ShowNat(n / 10) + [DigitChar(n % 10)]
  }

  /** The decimal rendering of an integer, with a leading '-' when negative. */
  function ShowInt(i: int): string {
    if i < 0 then "-" + ShowNat(-i) else ShowNat(i)
  }

  lemma {:induction false} ParseShowNat(n: nat)
    ensures ParseDigits(ShowNat(n)) == n
  {
    if n >= 10 {
      var s := ShowNat(n);
      assert s[..|s| - 1] == ShowNat(n / 10);
      ParseShowNat(n / 10);
    }
  }

  /** `s` is a run of digits, or '-' followed by a non-empty run of digits. */
  predicate IsDecimal(s: string) {
    (s != "" && AllDigits(s)) || (|s| > 1 && s[0] == '-' && AllDigits(s[1..]))
  }

  /**
   * The JavaScript coercion `+s` (equivalently `Number(s)`) on a string, for
   * the integer forms an identity provider emits. `None` stands for NaN and for
   * every non-empty string that is not an optional '-' followed by digits.
   */
  function ToNumber(s: string): (r: Option<int>)
    ensures s == "" ==> r == Some(0)
    ensures s != "" ==> (r.Some? <==> IsDecimal(s))
    ensures s != "" && AllDigits(s) ==> r == Some(ParseDigits(s))
    ensures |s| > 1 && s[0] == '-' && AllDigits(s[1..]) ==> r == Some(-(ParseDigits(s[1..]) as int))
  {
    if s == "" then Some(0)
    else if s[0] == '-' then
      (if |s| > 1 && AllDigits(s[1..]) then var n: int := ParseDigits(s[1..]); Some(-n) else None)
    else if AllDigits(s) then Some(ParseDigits(s))
    else None
  }

  /** Every integer written out in decimal coerces back to itself. */
  lemma NumberRoundTrip(i: int)
    ensures ToNumber(ShowInt(i)) == Some(i)
  {
    if i < 0 {
      var s := ShowInt(i);
      assert s[1..] == ShowNat(-i);
      ParseShowNat(-i);
    } else {
      ParseShowNat(i);
    }
  }

  /**
   * Text that starts with a letter coerces to NaN, and so does a lone '-'.
   * A leading 'I' is left out because "Infinity" is a number in JavaScript.
   */
  lemma LettersAreNaN(s: string)
    requires |s| > 0 && (('a' <= s[0] <= 'z') || ('A' <= s[0] <= 'Z' && s[0] != 'I'))
    ensures ToNumber(s) == None
    ensures ToNumber("-") == None
  {
  }

  /** Leading zeros do not change the value: "007" is 7 and "-007" is -7. */
  lemma LeadingZeros()
    ensures ToNumber("007") == Some(7)
    ensures ToNumber("-007") == Some(-7)
  {
    assert "007"[..2] == "00" && "00"[..1] == "0" && "0"[..0] == "";
    assert "-007"[1..] == "007";
  }
}
